=== FILE: README.md ===
# go-rss-torrent: the feed-to-store pipeline in Dafny

The service mirrors the torrent files of an RSS feed. A synchronisation pass
(`downloadTorrents`) fetches the source feed. For every item whose link ends
in `.torrent` it derives a file name and skips names already in the torrent
directory. Otherwise it downloads the file into that directory. The feed
renderer (`generateRssFeed`) turns the directory back into an RSS document.
Each `.torrent` entry that is not a directory becomes an item whose link
points at the service's own `/files/` route.

This project models both halves as pure functions and proves what they promise.

- `text.dfy` (module `Text`) holds the string primitives: ASCII lower-casing, the
  case-insensitive `.torrent` suffix test, `strings.ReplaceAll(title, " ", "_")`,
  and Go's `filepath.Base` for the `/` separator. `Base` is given both as a
  functional definition (`PathBase`) and as the two loops of the library
  routine (`Base`), and the two are proved equal.
- `extractor.dfy` (module `Extractor`) is the link filter and name derivation.
  `url.Parse` is a parameter of type `string -> ParsedUrl`, so the model only
  assumes that it is a function of the link.
- `synchronizer.dfy` (module `Synchronizer`) is one pass. It is a fold over the
  feed items with the store as a `set<string>` of directory entry names.
  Everything the outside world decides for one item is an `Outcome`, supplied
  in feed order: the stat probe, the HTTP exchange, file creation, the body
  copy and the cleanup removal. The pass returns the final store and a
  `Verdict` per item, naming the branch of the loop body the item left by.
- `renderer.dfy` (module `Renderer`) is the document: header, one `<item>`
  per listed directory entry, and the closing tags.
- `urlpath.dfy` (module `UrlPath`) says which path an HTTP link requests: the
  part after the host, cut at the first `?` or `#`, and percent-decoded. This
  is the path the `/files/` route (main.go:200) strips its prefix from. A link
  holding a control character or a backslash has no dependable request path:
  Go's URL parser refuses control characters, and browsers following the
  WHATWG URL standard drop tab, line feed and carriage return and read `\`
  as `/`.
- `pipeline.dfy` (module `Pipeline`) connects the two halves: the feed
  rendered from the store after a pass, and three concrete scenarios.

The central results are these. The store after a pass is the store before it
plus exactly the derived names of the items whose download left a file
(`PassStore`, `SyncStore`). It follows that a pass never removes a name and
that a second pass over the same feed with the same outcomes changes nothing,
saves nothing, and skips every name the first pass stored
(`SyncIdempotent`).

The model follows the code as written; in particular:

- The link filter tests the whole link string, query included, not the URL
  path. `Pipeline.QueryLinkStoredButNotListed` shows the consequence. A link
  `http://x/get?id=a.torrent` is accepted and the file is stored as `get`. The
  renderer then never lists that file, because `get` has no `.torrent` suffix.
- `os.Remove`'s error on the partial-file cleanup (main.go:97) is discarded,
  not logged. If the removal fails, the partial file stays. Later passes then
  treat its name as already fetched. The model carries this as
  `CopyFailed(removed: false)`. A name is therefore added either by a
  successful download or by a failed copy whose cleanup failed.
- `os.ReadDir` returns the entries it read before an error, and the code
  iterates over them anyway (main.go:127-133). A listing error yields zero
  items only when no entry was read before it: the directory could not be
  opened, or its first read failed (`UnreadableDirectoryRendersEmptyFeed`,
  `ReadErrorIgnored`).
- `filepath.Base` never returns `""`, so the `fileName == ""` test at
  main.go:56 can never succeed (`PathBase` ensures `r != []`).

## Model

| member | source | states |
|---|---|---|
| Text.PathBase | main.go:55 | `filepath.Base` returns "." for the empty path and "/" exactly when the path is all slashes. Otherwise it returns a non-empty, slash-free element of the path that starts after a slash (or at the start) and is followed only by slashes. It is never empty. |
| Text.Base | main.go:55 | The two loops of the library routine (strip trailing slashes, scan back to the last slash) compute `PathBase`. |
| Text.StripSlashes | main.go:55 | The first loop of `filepath.Base` stops at the length of the path with its trailing slashes removed. |
| Text.LastSlashBefore | main.go:55 | The second loop stops at the last slash before that length, or at -1; what follows it is the path's last segment. |
| Text.ToLower | main.go:40 | Lower-casing keeps the length and maps each character through ASCII lower-casing. |
| Text.IsTorrentName | main.go:40 | A string passes the `.torrent` suffix test only if it is at least 8 characters long (the full test is stated by `IsTorrentNameCharwise`). |
| Text.IsTorrentNameCharwise | main.go:40 | A string passes the lower-cased `.torrent` suffix test iff it has at least 8 characters and each of its last 8 lower-cases to the matching character of ".torrent". |
| Text.WithTorrentExtIsTorrentName | main.go:57 | Any string with ".torrent" appended passes the suffix test. |
| Text.SpacesToUnderscores | main.go:57 | Replacing spaces keeps the length, leaves no space, turns each space into '_' and keeps every other character. |
| Extractor.FallbackName | main.go:57 | The title-derived name always passes the suffix test, has no space, and keeps the title's non-space characters in place. |
| Extractor.FileName | main.go:55-58 | The derived name is never "", "." or "/". It is either the path's base or the title fallback. The fallback is taken whenever the path is empty, all slashes, or has "." as its last element. A non-fallback name contains no '/'. |
| Extractor.NameIsLastElement | main.go:55-58 | When the path ends in an ordinary element (not ".", possibly followed by slashes), the name is exactly that element. |
| Extractor.SlashOnlyFromTitle | main.go:55-58 | A derived name containing '/' must be the title fallback of a title containing '/'. |
| Extractor.Extract | main.go:39-58 | An item is rejected as "not a torrent" iff its whole lower-cased link lacks the suffix. It is rejected as a malformed URL iff the suffix matches but parsing fails. Otherwise it is named by `FileName` of the parsed path and the title. |
| Synchronizer.Judge | main.go:39-101 | The verdict on one item is a skip for a non-torrent link or a bad URL, and a skip as existing iff the derived name is in the store. A download is attempted iff the name is absent and the stat probe did not fail. The item is saved iff the name is absent and the response is 200 with a full copy. |
| Synchronizer.Effect | main.go:86-101 | A saved item adds its name. A failed copy whose partial file could not be removed also adds its name. A failed copy whose file was removed leaves the name absent. Every other verdict leaves the store as it was. |
| Synchronizer.StepAddsContribution | main.go:63-101 | One item changes the store only by adding its own derived name, and only when its download leaves a file. Every skip, and a failed copy whose partial file was removed, leaves the store unchanged. |
| Synchronizer.CleanupRemovesName | main.go:93-98 | When the copy fails and the partial file is removed, the derived name is not in the store after that item. |
| Synchronizer.AcquiredMembers | main.go:36-102 | A name is acquired by the feed iff some item derives it and that item's download leaves a file. |
| Synchronizer.Pass | main.go:36-102 | The pass yields one verdict per item and never removes a name from the store. |
| Synchronizer.PassStore | main.go:36-102 | The store after a pass equals the store before it plus the acquired names. |
| Synchronizer.PassLog | main.go:36-102 | Item `i` is judged against the starting store plus the names acquired by the items before it. |
| Synchronizer.Sync | main.go:26-105 | A feed fetch or parse failure ends the pass with the store unchanged and no item processed. Otherwise the store only grows and every item gets a verdict. |
| Synchronizer.SyncStore | main.go:26-105 | A name is in the store after a pass iff it was there before, or the feed parsed and some item derived it with a download that left a file. |
| Synchronizer.PassVerdict | main.go:40-78 | A link without the suffix is skipped. A name already present is skipped as existing whatever the outcome and link. This holds whether the name was there before the pass or was left by an earlier item. A download is attempted only for an absent name. |
| Synchronizer.DedupByName | main.go:60-65 | Two items that derive the same name (from different links, say): once the first leaves a file, the second is skipped without a download. |
| Synchronizer.SecondPassVerdict | main.go:63-65 | On a second pass with the same items and outcomes, no item is saved. Every item whose name the first pass stored is skipped as existing. |
| Synchronizer.SyncIdempotent | main.go:26-105 | Running the pass twice with the same feed and outcomes leaves the store as after the first pass. The second pass saves nothing and skips every name the first stored. |
| Synchronizer.FailedItemRetried | main.go:74-90 | An item whose download left no file is not skipped as existing on the next pass. This holds when no other item left a file of its name, and the name is still absent from the store. |
| Renderer.DownloadLink | main.go:140 | A download link is "http://" + host + "/files/" followed by the file name, unescaped: stripping that prefix gives back the name. |
| Renderer.DownloadLinkInjective | main.go:140 | Distinct file names get distinct links. |
| Renderer.ItemFor | main.go:140-150 | A rendered item has title = guid = the file name, the render time as pubDate, the download link of the name on the request's host, and "Downloaded torrent file: " followed by the name as description. |
| Renderer.Items | main.go:133-153 | Every rendered item passes the suffix test, has guid = title and links to its title under /files/ on the request's host. There are never more items than listing entries. |
| Renderer.ListedNames | main.go:134-136 | A name is listed iff some entry with that name is not a directory and passes the case-insensitive suffix test. |
| Renderer.DownloadLinkReachesFileIff | main.go:140 | The written link, followed, makes the /files/ route receive "/files/" + name iff the name holds no '%', '?', '#', control character or backslash. |
| Renderer.EscapedLinkReachesFile | main.go:140 | With the name percent-encoded (control characters and backslash included, as `url.PathEscape` does), the link reaches the file through the /files/ route for every name. |
| Renderer.EscapedAgreesOnPlainNames | main.go:140 | For names without '%', '?', '#', control characters or backslash the escaped link is exactly the link the code writes. |
| Renderer.ItemsFollowListing | main.go:133-153 | Rendering emits exactly one item per listed entry, in listing order, and the k-th item is the item for the k-th listed name. |
| Renderer.Header | main.go:116-123 | The header begins with the XML declaration and the channel title. Its channel link holds the request's host, and it ends with the render time as lastBuildDate. |
| Renderer.ItemXml | main.go:142-150 | An item's text begins with its title, link and guid elements, in that order, and ends with its pubDate and description elements and the closing `</item>` tag. |
| Renderer.Render | main.go:116-158 | The document always begins with the channel header and ends with the closing tags. With no listed entries it is exactly header followed by closing tags. |
| Renderer.RenderedItemInPlace | main.go:124-158 | The k-th listed name's item text sits in the document after the header and the items of earlier names, and before the later items and the closing tags. |
| Renderer.UnreadableDirectoryRendersEmptyFeed | main.go:127-131 | A directory that cannot be opened, or whose first read fails, yields the header and closing tags with no items. |
| Renderer.ReadErrorIgnored | main.go:127-133 | A read error does not change the document; the entries read before it are listed. |
| Pipeline.RenderShowsStore | main.go:127-153 | For a listing of the store, each entry not a directory and under a distinct name, the feed has one item for each torrent name of the store and no other. The item count is the number of such names. |
| Pipeline.RenderAfterSync | main.go:36-153 | After a pass, the feed of the store lists a name iff it passes the suffix test and was stored before or acquired by the pass. The item count is the number of torrent names in the new store. |
| Pipeline.FallbackNamesAreListed | main.go:57 | A stored file named from its item's title is always listed by the renderer. |
| Pipeline.FallbackTitleLinkMissesFile | main.go:57 | A title holding '#', '?', '%', a control character or a backslash gives a fallback name whose rendered link does not reach the stored file. |
| Pipeline.QueryLinkStoredButNotListed | main.go:40-55 | The link `http://x/get?id=a.torrent` passes the filter and its file is stored as `get`, which the renderer does not list. |
| Pipeline.SingleItemScenario | main.go:39-101 | A one-item feed linking `http://x/a.torrent`, with a successful download into an empty store, leaves exactly `a.torrent`. |
| Pipeline.SingleFileScenario | main.go:133-150 | A listing holding only the file `a.torrent` renders one item, whose link is `http://<host>/files/a.torrent`. |

## Left out

- HTTP fetching and feed parsing (`gofeed.ParseURL`, `http.Get`) are foreign library calls. They appear only as the feed result (`FeedError` or the items) and as the per-item `Outcome`.
- `url.Parse` internals are not modelled; the parser is a parameter of the model.
- Filesystem effects (`os.Stat`, `os.Create`, `io.Copy`, `os.Remove`, `os.ReadDir`) are reduced to the store as a set of names and a listing as a sequence of entries. The byte contents of files are not modelled.
- `filepath.Join` cleaning is left out: every derived name is treated as a flat entry of the store. In the source, a name of `..`, or a title-derived name containing `/` (`SlashOnlyFromTitle`), resolves to a path elsewhere, possibly outside the torrent directory.
- `os.Stat` outcomes are not tied to what the store holds, apart from presence. A stat error is an outcome the world may produce for an absent name.
- `strings.ToLower` is modelled on ASCII letters only. For the `.torrent` suffix test this loses nothing, since no other character lower-cases to one of `.torrent`'s characters.
- Timestamps (`time.Now()` in `lastBuildDate` and each `pubDate`) are one opaque string `now`. In the source each call may read a different time.
- `http.Get` and `io.Copy` have no time-out (main.go:74, 93), so a server that never answers stops the pass at that item. Every `Outcome` ends the item, so the model cannot express a hang.
- `UrlPath.Unescape` decodes "%XY" to the character with code 0xXY. Go decodes it to a byte, and escapes above 0x7F form UTF-8 sequences. The names involved here escape only ASCII characters.
- The cleaning of request paths by `http.ServeMux` and the file server's own checks are not modelled. The `/files/` route is taken to serve the name its request path holds after the prefix.
- `os.ReadDir`'s sorting of entries by name is not modelled. The listing order is whatever the listing supplies.
- The cron scheduler, the start-up pass run as a goroutine, overlapping passes, and concurrent access to the directory are concurrency concerns and are left out.
- `main` (environment configuration, directory creation, HTTP routing, the `/files/` static file server at main.go:161-209) is I/O plumbing. Of the `/files/` route (main.go:200) the model keeps its prefix, shared with the renderer's links, and, in `UrlPath.RequestPath`, the path a followed link delivers to it: the part after the host, cut at the first `?` or `#`, then percent-decoded. The file server behind the prefix is not modelled.
- `UrlPath.RequestPath` gives no path for a link holding a control character or a backslash, rather than modelling what each client does with one (Go refuses the link, a WHATWG client drops tab, line feed and carriage return and turns `\` into `/`). Either way such a link does not deliver "/files/" + name.
- Logging, the `Content-Type` header, and the `defer`red closes inside the loop have no effect on the store or the document body.
- XML escaping is not modelled, because the code does none: names are written into the document verbatim.

## Findings

| source | as written | input that shows it | evidently intended | confidence | as-written member | corrected member |
|---|---|---|---|---|---|---|
| main.go:140 | The file name is appended to the link unescaped. | The title "Ep #1" is stored as `Ep_#1.torrent`. Its link `http://host/files/Ep_#1.torrent` requests `/files/Ep_`, because `#` starts the fragment. A title holding a line feed gives a link with no dependable request path. | The link percent-encodes the name, so the `/files/` route receives `/files/` + name. | high, not executed | Renderer.DownloadLinkReachesFileIff | Renderer.EscapedLinkReachesFile |

`Pipeline.FallbackTitleLinkMissesFile` shows the as-written case for any title
holding '#', '?', '%', a control character or a backslash. The renderer members model the link as written. The
corrected link equals it on every name without those characters
(`EscapedAgreesOnPlainNames`), so every renderer property holds unchanged for
the corrected renderer on such names.

=== FILE: extractor.dfy ===
/**
 The link extractor: decides whether a feed item points at a torrent file
 and derives the local file name it is stored under (main.go:39-58).
 */
module Extractor {
  import opened Text

  /** The two fields of a parsed feed item the synchroniser reads. */
  datatype Item = Item(title: string, link: string)

  /** What `url.Parse` makes of a link: an error, or a URL whose decoded path is kept. */
  datatype ParsedUrl = UrlParseError | Url(path: string)

  /**
   The URL parser is library code outside the model; it is a parameter, so the
   only thing assumed of it is that it is a function of the link.
   */
  type UrlParser = string -> ParsedUrl

  /** Why an item is not a candidate, or the name it is stored under. */
  datatype Extraction = NotTorrent | MalformedUrl | Named(name: string)

  /** The name used when the URL path has no usable last element: the title, spaces made underscores, plus ".torrent". */
  function FallbackName(title: string): (r: string)
    ensures IsTorrentName(r)
    ensures ' ' !in r
    ensures |r| == |title| + |TorrentExt|
    ensures forall i :: 0 <= i < |title| && title[i] != ' ' ==> r[i] == title[i]
  {
    WithTorrentExtIsTorrentName(SpacesToUnderscores(title));
    SpacesToUnderscores(title) + TorrentExt
  }

  /** The file name for an item whose link parsed to a URL with the given path. */
  function FileName(path: string, title: string): (r: string)
    ensures r != [] && r != "." && r != "/"
    ensures r == PathBase(path) || r == FallbackName(title)
    ensures r == FallbackName(title) <== path == [] || AllSlashes(path) || PathBase(path) == "."
    ensures r != FallbackName(title) ==> '/' !in r
  {
    var base := PathBase(path);
    if base == "." || base == "/" || base == "" then FallbackName(title) else base
  }

  /**
   A name taken from the URL path is a single path element; a name with a
   '/' in it can only come from a title that has one.
   */
  lemma SlashOnlyFromTitle(path: string, title: string)
    ensures '/' in FileName(path, title) ==> '/' in title && FileName(path, title) == FallbackName(title)
  {
    var r := FileName(path, title);
    if '/' in r {
      var u := SpacesToUnderscores(title);
      assert r == u + TorrentExt;
      NoSlashInTorrentExt();
      assert '/' in u;
      var k :| 0 <= k < |u| && u[k] == '/';
      assert title[k] == '/';
    }
  }

  /**
   When the path ends in an ordinary element (not "." and not only slashes),
   the name is exactly that element.
   */
  lemma NameIsLastElement(path: string, title: string, i: nat, j: nat)
    requires 0 <= i < j <= |path|
    requires i == 0 || path[i - 1] == '/'
    requires '/' !in path[i..j] && path[i..j] != "."
    requires AllSlashes(path[j..])
    ensures FileName(path, title) == path[i..j]
  {
    TrimmedAreSlashes(path);
    var t := TrimTrailingSlashes(path);
    assert path[j - 1] != '/' by {
      assert path[i..j][j - 1 - i] == path[j - 1];
    }
    // The trimmed path ends exactly at j: slashes follow both positions.
    assert forall k :: |t| <= k < |path| ==> path[k] == '/' by {
      forall k | |t| <= k < |path| ensures path[k] == '/' {
        assert path[|t|..][k - |t|] == path[k];
      }
    }
    assert forall k :: j <= k < |path| ==> path[k] == '/' by {
      forall k | j <= k < |path| ensures path[k] == '/' {
        assert path[j..][k - j] == path[k];
      }
    }
    assert t != [] ==> path[|t| - 1] == t[|t| - 1];
    assert t == path[..j];
    SegmentAfterSlash(path, i - 1, j);
  }

  /** A path of one ordinary element, `/seg`, names the file `seg`. */
  lemma NameOfSingleElementPath(seg: string, title: string)
    requires seg != [] && '/' !in seg && seg != "."
    ensures FileName("/" + seg, title) == seg
  {
    var path := "/" + seg;
    assert path[1..] == seg;
    assert path[|path|..] == [];
    NameIsLastElement(path, title, 1, |path|);
  }

  /** Link filter, URL parse and name derivation for one item. */
  function Extract(item: Item, parse: UrlParser): (r: Extraction)
    ensures r.NotTorrent? <==> !IsTorrentName(item.link)
    ensures r.MalformedUrl? <==> IsTorrentName(item.link) && parse(item.link).UrlParseError?
    ensures r.Named? <==> IsTorrentName(item.link) && parse(item.link).Url?
    ensures r.Named? ==> r.name == FileName(parse(item.link).path, item.title)
  {
    if !IsTorrentName(item.link) then NotTorrent
    else match parse(item.link)
      case UrlParseError => MalformedUrl
      case Url(path) => Named(FileName(path, item.title))
  }
}

=== FILE: pipeline.dfy ===
/**
 How the two halves meet: the renderer lists the store the synchroniser
 fills. A listing "shows" a store when it holds one non-directory entry per
 stored name.
 */
module Pipeline {
  import opened Text
  import opened Extractor
  import opened Synchronizer
  import opened Renderer
  import opened UrlPath

  predicate Distinct(s: seq<string>) {
    forall k, l :: 0 <= k < l < |s| ==> s[k] != s[l]
  }

  /** A directory listing made of one non-directory entry for each name of the store. */
  ghost predicate ShowsStore(read: DirRead, store: Store) {
    && (forall k :: 0 <= k < |read.entries| ==> !read.entries[k].isDir)
    && (forall k, l :: 0 <= k < l < |read.entries| ==> read.entries[k].name != read.entries[l].name)
    && (forall n :: n in store <==> exists e :: e in read.entries && e.name == n)
  }

  /** The torrent names of a store: what a feed of that store can list. */
  function TorrentNames(store: Store): (r: set<string>)
    ensures r <= store
    ensures forall n :: n in r <==> n in store && IsTorrentName(n)
  {
    set n | n in store && IsTorrentName(n)
  }

  /** A sequence without repetitions has as many distinct elements as it is long. */
  lemma {:induction false} DistinctCard(s: seq<string>)
    requires Distinct(s)
    ensures |set x | x in s| == |s|
  {
    if s != [] {
      var t := s[1..];
      assert Distinct(t) by {
        forall k, l | 0 <= k < l < |t| ensures t[k] != t[l] {
          assert t[k] == s[k + 1] && t[l] == s[l + 1];
        }
      }
      DistinctCard(t);
      assert s[0] !in t by {
        forall l | 0 <= l < |t| ensures t[l] != s[0] {
          assert t[l] == s[l + 1];
        }
      }
      assert (set x | x in s) == {s[0]} + (set x | x in t);
    }
  }

  /** Entries with pairwise distinct names have pairwise distinct listed names. */
  lemma {:induction false} ListedNamesDistinct(entries: seq<DirEntry>)
    requires forall k, l :: 0 <= k < l < |entries| ==> entries[k].name != entries[l].name
    ensures Distinct(ListedNames(entries))
  {
    if entries != [] {
      var tail := entries[1..];
      assert forall k, l :: 0 <= k < l < |tail| ==> tail[k].name != tail[l].name by {
        forall k, l | 0 <= k < l < |tail| ensures tail[k].name != tail[l].name {
          assert tail[k] == entries[k + 1] && tail[l] == entries[l + 1];
        }
      }
      ListedNamesDistinct(tail);
      var rest := ListedNames(tail);
      assert forall e :: e in tail ==> e.name != entries[0].name by {
        forall e | e in tail ensures e.name != entries[0].name {
          var l :| 0 <= l < |tail| && tail[l] == e;
          assert entries[l + 1] == e;
        }
      }
      assert entries[0].name !in rest;
      var all := ListedNames(entries);
      assert all == rest || all == [entries[0].name] + rest;
      forall k, l | 0 <= k < l < |all| ensures all[k] != all[l] {
        if all != rest {
          assert all[l] == rest[l - 1];
          if k > 0 {
            assert all[k] == rest[k - 1];
          }
        }
      }
    }
  }

  /**
   The feed of a store lists each of its torrent names and nothing else, one
   item per name, each with title = guid = name and a /files/ link to it.
   */
  lemma RenderShowsStore(read: DirRead, store: Store, host: string, now: string)
    requires ShowsStore(read, store)
    ensures var items := Items(read.entries, host, now);
            && (forall n :: (exists k :: 0 <= k < |items| && items[k] == ItemFor(n, host, now)) <==> n in TorrentNames(store))
            && |items| == |TorrentNames(store)|
  {
    var entries := read.entries;
    var items := Items(entries, host, now);
    var names := ListedNames(entries);
    ItemsFollowListing(entries, host, now);
    ListedNamesDistinct(entries);
    DistinctCard(names);
    assert (set x | x in names) == TorrentNames(store);
    forall n
      ensures (exists k :: 0 <= k < |items| && items[k] == ItemFor(n, host, now)) <==> n in names
    {
      if n in names {
        var k :| 0 <= k < |names| && names[k] == n;
        assert items[k] == ItemFor(n, host, now);
      }
    }
  }

  /**
   After a pass, the feed of the store lists exactly the torrent names that
   were there before or that the pass left behind, each once.
   */
  lemma RenderAfterSync(store: Store, feed: Feed, parse: UrlParser, outcomes: seq<Outcome>,
                        read: DirRead, host: string, now: string, name: string)
    requires feed.Feed? ==> |outcomes| == |feed.items|
    requires ShowsStore(read, Sync(store, feed, parse, outcomes).store)
    ensures var items := Items(read.entries, host, now);
            && |items| == |TorrentNames(Sync(store, feed, parse, outcomes).store)|
            && ((exists k :: 0 <= k < |items| && items[k] == ItemFor(name, host, now)) <==>
                  IsTorrentName(name) &&
                  (name in store || (feed.Feed? && exists i :: LeavesName(feed.items, parse, outcomes, i, name))))
  {
    RenderShowsStore(read, Sync(store, feed, parse, outcomes).store, host, now);
    SyncStore(store, feed, parse, outcomes, name);
  }

  /** A name taken from the item's title always carries the ".torrent" suffix, so the feed lists it once stored. */
  lemma FallbackNamesAreListed(item: Item, parse: UrlParser)
    requires Extract(item, parse).Named?
    requires Extract(item, parse).name == FallbackName(item.title)
    ensures Listed(DirEntry(Extract(item, parse).name, false))
  {
  }

  /**
   A title holding '#', '?', '%', a control character or a backslash (an
   episode "Ep #1", say) gives a fallback
   name whose rendered link does not reach the stored file: the request path
   the /files/ route sees is not the route followed by the name.
   */
  lemma FallbackTitleLinkMissesFile(host: string, title: string)
    requires PlainHost(host)
    requires exists k :: 0 <= k < |title| && Reserved(title[k])
    ensures RequestPath(DownloadLink(host, FallbackName(title))) != Some(FilesRoute + FallbackName(title))
  {
    var k :| 0 <= k < |title| && Reserved(title[k]);
    assert FallbackName(title)[k] == title[k];
    DownloadLinkReachesFileIff(host, FallbackName(title));
  }

  /** A one-item feed whose download succeeds stores exactly that item's name in an empty store. */
  lemma OneItemFeed(item: Item, parse: UrlParser, o: Outcome)
    requires Extract(item, parse).Named? && LeavesFile(o)
    ensures Sync({}, Feed([item]), parse, [o]).store == {Extract(item, parse).name}
  {
    PassStore({}, [item], parse, [o]);
    assert [item][..0] == [];
    assert LeavesName([item], parse, [o], 0, Extract(item, parse).name);
    forall n ensures n in Acquired([item], parse, [o]) <==> n == Extract(item, parse).name {
      AcquiredMembers([item], parse, [o], n);
    }
  }

  /**
   The link filter looks at the whole link, query included, while the name
   comes from the URL path: an item whose link is `http://x/get?id=a.torrent`
   is downloaded and stored as `get`, which the feed of the store never lists.
   */
  lemma QueryLinkStoredButNotListed(host: string, now: string)
    ensures var item := Item("A", "http://x/get?id=a" + TorrentExt);
            var parse := (link: string) => if link == item.link then Url("/get") else UrlParseError;
            var after := Sync({}, Feed([item]), parse, [Responded(StatusOK, Copied)]).store;
            && after == {"get"}
            && Items([DirEntry("get", false)], host, now) == []
  {
    var item := Item("A", "http://x/get?id=a" + TorrentExt);
    var parse := (link: string) => if link == item.link then Url("/get") else UrlParseError;
    WithTorrentExtIsTorrentName("http://x/get?id=a");
    assert "/get" == "/" + "get";
    NameOfSingleElementPath("get", item.title);
    OneItemFeed(item, parse, Responded(StatusOK, Copied));
    assert !IsTorrentName("get");
  }

  /** A one-item feed linking `http://x/a.torrent`, into an empty store: the file is stored as `a.torrent`. */
  lemma SingleItemScenario()
    ensures var name := "a" + TorrentExt;
            var item := Item("A", "http://x/" + name);
            var parse := (link: string) => if link == item.link then Url("/" + name) else UrlParseError;
            Sync({}, Feed([item]), parse, [Responded(StatusOK, Copied)]).store == {name}
  {
    var name := "a" + TorrentExt;
    var item := Item("A", "http://x/" + name);
    var parse := (link: string) => if link == item.link then Url("/" + name) else UrlParseError;
    assert item.link == "http://x/a" + TorrentExt;
    WithTorrentExtIsTorrentName("http://x/a");
    assert '/' !in name;
    NameOfSingleElementPath(name, item.title);
    OneItemFeed(item, parse, Responded(StatusOK, Copied));
  }

  /** The store `{a.torrent}` renders as one item whose link is `http://<host>/files/a.torrent`. */
  lemma SingleFileScenario(host: string, now: string)
    ensures var name := "a" + TorrentExt;
            && Items([DirEntry(name, false)], host, now) == [ItemFor(name, host, now)]
            && ItemFor(name, host, now).link == "http://" + host + "/files/" + name
  {
    WithTorrentExtIsTorrentName("a");
  }
}

=== FILE: renderer.dfy ===
/**
 The feed renderer behind GET /rss (main.go:108-159): one RSS item per
 non-directory ".torrent" entry of the directory listing, each linking back to
 the /files/ route that serves the file.
 */
module Renderer {
  import opened Text
  import opened UrlPath

  /** One entry of `os.ReadDir`. */
  datatype DirEntry = DirEntry(name: string, isDir: bool)

  /**
   What `os.ReadDir` returns: the entries it read (in the library's order),
   and whether it reported an error. On an error the entries read before it
   are still returned: none at all when the directory cannot be opened or its
   first read fails.
   */
  datatype DirRead = DirRead(entries: seq<DirEntry>, failed: bool)

  /** The fields written for one `<item>`. */
  datatype RssItem = RssItem(title: string, link: string, guid: string, pubDate: string, description: string)

  /** The route prefix under which the stored files are served. */
  const FilesRoute: string := "/files/"

  /** An entry the feed lists: not a directory, and a ".torrent" name in any letter case. */
  predicate Listed(e: DirEntry) {
    !e.isDir && IsTorrentName(e.name)
  }

  /**
   The download URL of a stored file, as main.go:140 writes it: the name is
   appended to the /files/ route of the same host as it is, unescaped.
   */
  function DownloadLink(host: string, name: string): (link: string)
    ensures var prefix := Scheme + host + FilesRoute;
            |prefix| <= |link| && link[..|prefix|] == prefix && link[|prefix|..] == name
  {
    var link := Scheme + host + FilesRoute + name;
    assert link[..|Scheme + host + FilesRoute|] == Scheme + host + FilesRoute;
    link
  }

  /** Distinct files get distinct links. */
  lemma DownloadLinkInjective(host: string, a: string, b: string)
    requires DownloadLink(host, a) == DownloadLink(host, b)
    ensures a == b
  {
  }

  /** The route prefix holds no character a path must escape. */
  lemma FilesRoutePlain()
    ensures forall k :: 0 <= k < |FilesRoute| ==> !Reserved(FilesRoute[k])
    ensures '%' !in FilesRoute
  {
    assert FilesRoute == ['/', 'f', 'i', 'l', 'e', 's', '/'];
  }

  /** A name holding '%', '?', '#', a control character or a backslash. */
  predicate HasReserved(name: string) {
    exists k :: 0 <= k < |name| && Reserved(name[k])
  }

  /** The path a request for a download link asks for; none when the name holds a control character or a backslash. */
  lemma DownloadLinkPath(host: string, name: string)
    requires PlainHost(host)
    ensures Clean(name) ==> RequestPath(DownloadLink(host, name)) == Unescape(PathPart(FilesRoute + name))
    ensures !Clean(name) ==> RequestPath(DownloadLink(host, name)) == None
  {
    assert DownloadLink(host, name) == Scheme + host + (FilesRoute + name);
    assert (FilesRoute + name)[0] == FilesRoute[0] == '/';
    RequestPathOf(host, FilesRoute + name);
    CleanRouteAndName(name);
  }

  /** The route followed by a name is clean exactly when the name is. */
  lemma CleanRouteAndName(name: string)
    ensures Clean(FilesRoute + name) <==> Clean(name)
  {
    FilesRoutePlain();
    RouteAndName(name);
    if !Clean(name) {
      var k :| 0 <= k < |name| && Unsafe(name[k]);
      assert (FilesRoute + name)[|FilesRoute| + k] == name[k];
    }
  }

  /** The characters of the route followed by a name. */
  lemma RouteAndName(name: string)
    ensures forall j :: |FilesRoute| <= j < |FilesRoute + name| ==> (FilesRoute + name)[j] == name[j - |FilesRoute|]
    ensures forall j :: 0 <= j < |FilesRoute| ==> (FilesRoute + name)[j] == FilesRoute[j]
  {
  }

  /** A '?' or '#' in the name cuts the requested path short. */
  lemma CutNameMissesFile(name: string)
    requires exists k :: 0 <= k < |name| && EndsPath(name[k])
    ensures Unescape(PathPart(FilesRoute + name)) != Some(FilesRoute + name)
  {
    var p := FilesRoute + name;
    var k :| 0 <= k < |name| && EndsPath(name[k]);
    RouteAndName(name);
    var raw := PathPart(p);
    assert EndsPath(p[|FilesRoute| + k]);
    assert |raw| <= |FilesRoute| + k;
    UnescapeShrinks(raw);
  }

  /** A name whose characters are all free of '?' and '#' is requested whole, before decoding. */
  lemma WholeNameRequested(name: string)
    requires forall k :: 0 <= k < |name| ==> !EndsPath(name[k])
    ensures PathPart(FilesRoute + name) == FilesRoute + name
  {
    FilesRoutePlain();
    RouteAndName(name);
    PathPartWhole(FilesRoute + name);
  }

  /** A '%' in a name that holds no '?' or '#' is decoded away, or refused. */
  lemma PercentNameMissesFile(name: string)
    requires forall k :: 0 <= k < |name| ==> !EndsPath(name[k])
    requires '%' in name
    ensures Unescape(PathPart(FilesRoute + name)) != Some(FilesRoute + name)
  {
    WholeNameRequested(name);
    UnescapeShrinks(FilesRoute + name);
  }

  /** A name without reserved characters is requested exactly. */
  lemma PlainNameReachesFile(name: string)
    requires !HasReserved(name)
    ensures Unescape(PathPart(FilesRoute + name)) == Some(FilesRoute + name)
  {
    WholeNameRequested(name);
    FilesRoutePlain();
    UnescapePlainPrefix(FilesRoute, name);
    assert '%' !in name;
    UnescapePlain(name);
  }

  /**
   A link as main.go:140 writes it reaches the file through the /files/ route
   exactly when the name holds no '%', '?', '#', control character or
   backslash. Otherwise the link has no dependable request path, or the path
   is cut at the query or fragment, or decoded, so the route strips its prefix
   from a different path, or the request is refused.
   */
  lemma DownloadLinkReachesFileIff(host: string, name: string)
    requires PlainHost(host)
    ensures RequestPath(DownloadLink(host, name)) == Some(FilesRoute + name) <==> !HasReserved(name)
  {
    DownloadLinkPath(host, name);
    if !Clean(name) {
      var k :| 0 <= k < |name| && Unsafe(name[k]);
      assert Reserved(name[k]);
    } else if exists k :: 0 <= k < |name| && EndsPath(name[k]) {
      CutNameMissesFile(name);
    } else if HasReserved(name) {
      var k :| 0 <= k < |name| && Reserved(name[k]);
      assert name[k] == '%';
      PercentNameMissesFile(name);
    } else {
      PlainNameReachesFile(name);
    }
  }

  /** The download link with the name percent-encoded, as the route needs it. */
  function EscapedDownloadLink(host: string, name: string): string {
    Scheme + host + FilesRoute + Escape(name)
  }

  /** The escaped link reaches every stored file through the /files/ route, whatever its name. */
  lemma EscapedLinkReachesFile(host: string, name: string)
    requires PlainHost(host)
    ensures RequestPath(EscapedDownloadLink(host, name)) == Some(FilesRoute + name)
  {
    var e := Escape(name);
    var p := FilesRoute + e;
    assert EscapedDownloadLink(host, name) == Scheme + host + p;
    assert FilesRoute[0] == '/';
    RequestPathOf(host, p);
    FilesRoutePlain();
    assert forall j :: 0 <= j < |p| ==> !EndsPath(p[j]) && !Unsafe(p[j]) by {
      forall j | 0 <= j < |p| ensures !EndsPath(p[j]) && !Unsafe(p[j]) {
        if j >= |FilesRoute| {
          assert p[j] == e[j - |FilesRoute|];
        }
      }
    }
    PathPartWhole(p);
    UnescapePlainPrefix(FilesRoute, e);
    UnescapeEscape(name);
  }

  /** For a name without reserved characters the escaped link is the link the code writes. */
  lemma EscapedAgreesOnPlainNames(host: string, name: string)
    requires !HasReserved(name)
    ensures EscapedDownloadLink(host, name) == DownloadLink(host, name)
  {
    EscapePlain(name);
  }

  /** The description written for a file. */
  const DescriptionLead: string := "Downloaded torrent file: "

  /** The item written for one file; `now` stands for the time read when the item is written. */
  function ItemFor(name: string, host: string, now: string): (it: RssItem)
    ensures it.title == name && it.guid == name && it.pubDate == now
    ensures it.link == DownloadLink(host, name)
    ensures it.description == DescriptionLead + name
  {
    RssItem(name, DownloadLink(host, name), name, now, DescriptionLead + name)
  }

  /** The loop of main.go:133-153: the entries that pass the filter, each turned into an item, in listing order. */
  function Items(entries: seq<DirEntry>, host: string, now: string): (r: seq<RssItem>)
    ensures |r| <= |entries|
    ensures forall k :: 0 <= k < |r| ==>
              && r[k].guid == r[k].title
              && r[k].link == DownloadLink(host, r[k].title)
              && IsTorrentName(r[k].title)
  {
    if entries == [] then []
    else
      var rest := Items(entries[1..], host, now);
      if Listed(entries[0]) then [ItemFor(entries[0].name, host, now)] + rest else rest
  }

  /** The names of the listed entries, in listing order. */
  function ListedNames(entries: seq<DirEntry>): (r: seq<string>)
    ensures |r| <= |entries|
    ensures forall n :: n in r <==> exists e :: e in entries && Listed(e) && e.name == n
  {
    if entries == [] then []
    else
      var rest := ListedNames(entries[1..]);
      assert forall e :: e in entries <==> e == entries[0] || e in entries[1..];
      if Listed(entries[0]) then [entries[0].name] + rest else rest
  }

  /**
   Rendering emits exactly one item per listed entry, in listing order, with
   title = guid = the file name and the link pointing at the /files/ route.
   */
  lemma {:induction false} ItemsFollowListing(entries: seq<DirEntry>, host: string, now: string)
    ensures |Items(entries, host, now)| == |ListedNames(entries)|
    ensures forall k :: 0 <= k < |ListedNames(entries)| ==>
              Items(entries, host, now)[k] == ItemFor(ListedNames(entries)[k], host, now)
  {
    if entries != [] {
      ItemsFollowListing(entries[1..], host, now);
    }
  }

  /** The document text up to the host of the channel link. */
  const Prologue: string :=
    "<?xml version=\"1.0\" encoding=\"UTF-8\"?>\n<rss version=\"2.0\">\n<channel>\n<title>Torrent Files Feed</title>\n<link>http://"

  /** The channel text between the host and the build date. */
  const ChannelInfo: string :=
    "/rss</link>\n<description>Torrent files saved in the container.</description>\n<lastBuildDate>"

  const BuildDateClose: string := "</lastBuildDate>\n"

  /**
   The document prologue with the channel metadata: the channel links to the
   /rss route of the request's host, and its build date is the render time.
   */
  function Header(host: string, now: string): (h: string)
    ensures |h| == |Prologue| + |host| + |ChannelInfo| + |now| + |BuildDateClose|
    ensures Prologue <= h
    ensures h[|Prologue|..|Prologue| + |host|] == host
    ensures HasSuffix(h, now + BuildDateClose)
  {
    var h := Prologue + host + ChannelInfo + (now + BuildDateClose);
    assert h[..|Prologue|] == Prologue;
    assert h[|Prologue|..|Prologue| + |host|] == host;
    assert h[|h| - |now + BuildDateClose|..] == now + BuildDateClose;
    h
  }

  /** The closing tags written after the items. */
  const Footer: string := "\n</channel>\n</rss>"

  const ItemOpen: string := "\n<item>\n<title>"
  const TitleToLink: string := "</title>\n<link>"
  const LinkToGuid: string := "</link>\n<guid>"
  const GuidToDate: string := "</guid>\n<pubDate>"
  const DateToDescription: string := "</pubDate>\n<description>"
  const ItemClose: string := "</description>\n</item>\n"

  /**
   The text of one item: the title, link and guid elements come first, in
   that order, and the pubDate and description elements close it. The fields
   are written verbatim, without XML escaping.
   */
  function ItemXml(it: RssItem): (x: string)
    ensures ItemOpen + it.title + TitleToLink + it.link + LinkToGuid + it.guid + GuidToDate <= x
    ensures HasSuffix(x, it.pubDate + DateToDescription + it.description + ItemClose)
  {
    var front := ItemOpen + it.title + TitleToLink + it.link + LinkToGuid + it.guid + GuidToDate;
    var back := it.pubDate + DateToDescription + it.description + ItemClose;
    var x := front + back;
    assert x[..|front|] == front;
    assert x[|x| - |back|..] == back;
    x
  }

  function ItemsXml(items: seq<RssItem>): string {
    if items == [] then [] else ItemXml(items[0]) + ItemsXml(items[1..])
  }

  /** The text of the items is the text of those before item `k`, then item `k`, then those after it. */
  lemma {:induction false} ItemsXmlSplit(items: seq<RssItem>, k: nat)
    requires k < |items|
    ensures ItemsXml(items) == ItemsXml(items[..k]) + ItemXml(items[k]) + ItemsXml(items[k + 1..])
  {
    if k > 0 {
      var tail := items[1..];
      ItemsXmlSplit(tail, k - 1);
      assert tail[..k - 1] == items[..k][1..] && tail[k - 1] == items[k] && tail[k..] == items[k + 1..];
      var a, b, c := ItemsXml(tail[..k - 1]), ItemXml(items[k]), ItemsXml(items[k + 1..]);
      assert ItemsXml(tail) == a + b + c;
      assert ItemsXml(items[..k]) == ItemXml(items[0]) + a;
      assert ItemsXml(items) == ItemXml(items[0]) + (a + b + c);
    } else {
      assert items[..0] == [] && items[1..] == items[k + 1..];
    }
  }

  /**
   The whole response body. The read error is logged and otherwise ignored:
   whatever entries were read are rendered, and the document always has its
   header and closing tags.
   */
  function Render(read: DirRead, host: string, now: string): (doc: string)
    ensures Header(host, now) <= doc
    ensures HasSuffix(doc, Footer)
    ensures Items(read.entries, host, now) == [] ==> doc == Header(host, now) + Footer
  {
    var body := Header(host, now) + ItemsXml(Items(read.entries, host, now));
    assert (body + Footer)[..|Header(host, now)|] == Header(host, now);
    body + Footer
  }

  /**
   The document carries the item of every listed entry, in listing order: the
   `k`-th listed name's item comes after the header and the items of the
   names before it, and before those after it and the closing tags.
   */
  lemma RenderedItemInPlace(read: DirRead, host: string, now: string, k: nat)
    requires k < |ListedNames(read.entries)|
    ensures var items := Items(read.entries, host, now);
            |items| == |ListedNames(read.entries)| &&
            Render(read, host, now) ==
              Header(host, now) + ItemsXml(items[..k]) + ItemXml(ItemFor(ListedNames(read.entries)[k], host, now))
              + ItemsXml(items[k + 1..]) + Footer
  {
    var items := Items(read.entries, host, now);
    ItemsFollowListing(read.entries, host, now);
    ItemsXmlSplit(items, k);
    var h, a, b, c := Header(host, now), ItemsXml(items[..k]), ItemXml(items[k]), ItemsXml(items[k + 1..]);
    assert items[k] == ItemFor(ListedNames(read.entries)[k], host, now);
    assert Render(read, host, now) == h + (a + b + c) + Footer;
    Regroup(h, a, b, c, Footer);
  }

  lemma Regroup(h: string, a: string, b: string, c: string, f: string)
    ensures h + (a + b + c) + f == h + a + b + c + f
  {
  }

  /** A directory that cannot be opened, or whose first read fails, yields an empty but well-formed feed. */
  lemma UnreadableDirectoryRendersEmptyFeed(host: string, now: string)
    ensures Render(DirRead([], true), host, now) == Header(host, now) + Footer
  {
  }

  /** The error flag does not change the document: entries read before an error are listed as usual. */
  lemma ReadErrorIgnored(entries: seq<DirEntry>, host: string, now: string)
    ensures Render(DirRead(entries, true), host, now) == Render(DirRead(entries, false), host, now)
  {
  }
}

=== FILE: synchronizer.dfy ===
/**
 One synchronisation pass (main.go:26-105): parse the feed, and for each item
 in order run the link extractor, skip names already in the store, and
 otherwise download the file into the store.

 The store is the set of names present in the torrent directory. Everything
 the pass learns from the outside world about one item (the stat probe, the
 HTTP exchange, creating and filling the file) is one `Outcome`, supplied
 per item alongside the feed.
 */
module Synchronizer {
  import opened Text
  import opened Extractor

  /** Names of the entries in the torrent directory. */
  type Store = set<string>

  /** `http.StatusOK`. */
  const StatusOK: int := 200

  /** Creating the file, then copying the body into it; on a failed copy the file is removed, and that removal may itself fail. */
  datatype WriteResult = CreateFailed | CopyFailed(removed: bool) | Copied

  /**
   What the outside world does for one item whose name is not in the store:
   `os.Stat` fails with something other than "does not exist", `http.Get`
   fails, or a response arrives with a status and the write goes some way.
   */
  datatype Outcome = StatError | TransportError | Responded(status: int, write: WriteResult)

  /** The result of fetching and parsing the source feed. */
  datatype Feed = FeedError | Feed(items: seq<Item>)

  /** What the pass did with one item: the branch of the loop body it left by. */
  datatype Verdict =
    | SkipNotTorrent
    | SkipBadUrl
    | SkipExisting(name: string)
    | SkipStatError(name: string)
    | SkipTransport(name: string)
    | SkipStatus(name: string, status: int)
    | SkipCreate(name: string)
    | SkipWrite(name: string, removed: bool)
    | Saved(name: string)
  {
    /** An HTTP request was issued for this item. */
    predicate Attempted() {
      SkipTransport? || SkipStatus? || SkipCreate? || SkipWrite? || Saved?
    }
  }

  /** The store after a pass, and the verdict for each item in feed order. */
  datatype PassResult = PassResult(store: Store, log: seq<Verdict>)

  /** A file of the item's name is left in the directory: the copy succeeded, or it failed and the partial file could not be removed. */
  predicate LeavesFile(o: Outcome) {
    o.Responded? && o.status == StatusOK && (o.write.Copied? || o.write == CopyFailed(false))
  }

  /** The branch of the loop body one item takes, given the store at that point. */
  function Judge(store: Store, item: Item, parse: UrlParser, o: Outcome): (v: Verdict)
    ensures v.SkipNotTorrent? <==> !IsTorrentName(item.link)
    ensures v.SkipBadUrl? <==> Extract(item, parse).MalformedUrl?
    ensures Extract(item, parse).Named? <==> !v.SkipNotTorrent? && !v.SkipBadUrl?
    ensures Extract(item, parse).Named? ==> v.name == Extract(item, parse).name
    ensures v.SkipExisting? <==> Extract(item, parse).Named? && Extract(item, parse).name in store
    ensures v.Attempted() <==> Extract(item, parse).Named? && Extract(item, parse).name !in store && !o.StatError?
    ensures v.Saved? <==> Extract(item, parse).Named? && Extract(item, parse).name !in store && o == Responded(StatusOK, Copied)
  {
    match Extract(item, parse)
    case NotTorrent => SkipNotTorrent
    case MalformedUrl => SkipBadUrl
    case Named(n) =>
      if n in store then SkipExisting(n)
      else
        match o
        case StatError => SkipStatError(n)
        case TransportError => SkipTransport(n)
        case Responded(status, w) =>
          if status != StatusOK then SkipStatus(n, status)
          else
            match w
            case CreateFailed => SkipCreate(n)
            case CopyFailed(removed) => SkipWrite(n, removed)
            case Copied => Saved(n)
  }

  /**
   The effect of one verdict on the store. A failed copy first created the
   file and then removed it, unless the removal failed.
   */
  function Effect(store: Store, v: Verdict): (r: Store)
    ensures v.Saved? ==> r == store + {v.name}
    ensures v.SkipWrite? && !v.removed ==> r == store + {v.name}
    ensures v.SkipWrite? && v.removed ==> r == store - {v.name}
    ensures !v.Saved? && !v.SkipWrite? ==> r == store
  {
    match v
    case SkipWrite(n, removed) => if removed then (store + {n}) - {n} else store + {n}
    case Saved(n) => store + {n}
    case _ => store
  }

  /** The name one item adds to the store, if any, whatever the store already holds. */
  function Contribution(item: Item, parse: UrlParser, o: Outcome): set<string> {
    match Extract(item, parse)
    case Named(n) => if LeavesFile(o) then {n} else {}
    case _ => {}
  }

  /**
   One step changes the store only by the item's own contribution: skips of
   every kind leave it as it was, and a removed partial file leaves no name.
   */
  lemma StepAddsContribution(store: Store, item: Item, parse: UrlParser, o: Outcome)
    ensures Effect(store, Judge(store, item, parse, o)) == store + Contribution(item, parse, o)
  {
    var v := Judge(store, item, parse, o);
    var c := Contribution(item, parse, o);
    var e := Extract(item, parse);
    if e.Named? {
      var n := e.name;
      if n in store {
        assert v == SkipExisting(n) && c <= {n};
      } else if LeavesFile(o) {
        assert c == {n};
        assert v == Saved(n) || v == SkipWrite(n, false);
      } else {
        assert c == {};
        assert store - {n} == store;
      }
    } else {
      assert c == {} && !v.Saved? && !v.SkipWrite?;
    }
  }

  /** A write failure whose cleanup succeeds leaves no file of that name behind. */
  lemma CleanupRemovesName(store: Store, item: Item, parse: UrlParser, o: Outcome)
    requires o.Responded? && o.status == StatusOK && o.write == CopyFailed(true)
    ensures Extract(item, parse).Named? && Extract(item, parse).name !in store ==>
              Judge(store, item, parse, o) == SkipWrite(Extract(item, parse).name, true) &&
              Extract(item, parse).name !in Effect(store, Judge(store, item, parse, o))
  {
  }

  /** An item contributes exactly its derived name, and only when its download leaves a file. */
  lemma ContributionMember(item: Item, parse: UrlParser, o: Outcome, name: string)
    ensures name in Contribution(item, parse, o) <==> Extract(item, parse) == Named(name) && LeavesFile(o)
  {
  }

  /** All names the items of a feed leave in the store, independent of the store they meet. */
  function Acquired(items: seq<Item>, parse: UrlParser, outcomes: seq<Outcome>): set<string>
    requires |outcomes| == |items|
  {
    if items == [] then {}
    else
      var n := |items| - 1;
      Acquired(items[..n], parse, outcomes[..n]) + Contribution(items[n], parse, outcomes[n])
  }

  /** Item `i` derives `name` and its download leaves a file of that name. */
  predicate LeavesName(items: seq<Item>, parse: UrlParser, outcomes: seq<Outcome>, i: int, name: string)
    requires |outcomes| == |items|
  {
    0 <= i < |items| && Extract(items[i], parse) == Named(name) && LeavesFile(outcomes[i])
  }

  /** The name an item leaves is acquired by every feed that contains the item. */
  lemma {:induction false} AcquiredFrom(items: seq<Item>, parse: UrlParser, outcomes: seq<Outcome>, name: string, i: int)
    requires |outcomes| == |items| && LeavesName(items, parse, outcomes, i, name)
    ensures name in Acquired(items, parse, outcomes)
  {
    var n := |items| - 1;
    ContributionMember(items[n], parse, outcomes[n], name);
    if i < n {
      assert items[..n][i] == items[i] && outcomes[..n][i] == outcomes[i];
      AcquiredFrom(items[..n], parse, outcomes[..n], name, i);
    }
  }

  /** Every acquired name was left by some item of the feed. */
  lemma {:induction false} AcquiredWitness(items: seq<Item>, parse: UrlParser, outcomes: seq<Outcome>, name: string)
    requires |outcomes| == |items| && name in Acquired(items, parse, outcomes)
    ensures exists i :: LeavesName(items, parse, outcomes, i, name)
  {
    if items != [] {
      var n := |items| - 1;
      var items', outcomes' := items[..n], outcomes[..n];
      ContributionMember(items[n], parse, outcomes[n], name);
      if name in Acquired(items', parse, outcomes') {
        AcquiredWitness(items', parse, outcomes', name);
        var i :| LeavesName(items', parse, outcomes', i, name);
        assert items'[i] == items[i] && outcomes'[i] == outcomes[i];
        assert LeavesName(items, parse, outcomes, i, name);
      } else {
        assert LeavesName(items, parse, outcomes, n, name);
      }
    }
  }

  /** A name is acquired exactly when some item derives it and its download leaves a file. */
  lemma AcquiredMembers(items: seq<Item>, parse: UrlParser, outcomes: seq<Outcome>, name: string)
    requires |outcomes| == |items|
    ensures name in Acquired(items, parse, outcomes) <==> exists i :: LeavesName(items, parse, outcomes, i, name)
  {
    if name in Acquired(items, parse, outcomes) {
      AcquiredWitness(items, parse, outcomes, name);
    }
    forall i | LeavesName(items, parse, outcomes, i, name)
      ensures name in Acquired(items, parse, outcomes)
    {
      AcquiredFrom(items, parse, outcomes, name, i);
    }
  }

  /**
   The loop of main.go:36-102 over the items, in order: the pass over all the
   items is the pass over all but the last, followed by the last item's step.
   */
  function Pass(store: Store, items: seq<Item>, parse: UrlParser, outcomes: seq<Outcome>): (r: PassResult)
    requires |outcomes| == |items|
    ensures |r.log| == |items|
    ensures store <= r.store
  {
    if items == [] then PassResult(store, [])
    else
      var n := |items| - 1;
      var prev := Pass(store, items[..n], parse, outcomes[..n]);
      var v := Judge(prev.store, items[n], parse, outcomes[n]);
      PassResult(Effect(prev.store, v), prev.log + [v])
  }

  /** The store after a pass is the store before it plus the names the items acquire. */
  lemma {:induction false} PassStore(store: Store, items: seq<Item>, parse: UrlParser, outcomes: seq<Outcome>)
    requires |outcomes| == |items|
    ensures Pass(store, items, parse, outcomes).store == store + Acquired(items, parse, outcomes)
  {
    if items != [] {
      var n := |items| - 1;
      PassStore(store, items[..n], parse, outcomes[..n]);
      StepAddsContribution(Pass(store, items[..n], parse, outcomes[..n]).store, items[n], parse, outcomes[n]);
    }
  }

  /**
   Each item is judged against the store as it stands when the item is
   reached: the starting store plus what the items before it acquired.
   */
  lemma {:induction false} PassLog(store: Store, items: seq<Item>, parse: UrlParser, outcomes: seq<Outcome>, i: nat)
    requires |outcomes| == |items| && i < |items|
    ensures Pass(store, items, parse, outcomes).log[i] ==
              Judge(store + Acquired(items[..i], parse, outcomes[..i]), items[i], parse, outcomes[i])
  {
    var n := |items| - 1;
    var prev := Pass(store, items[..n], parse, outcomes[..n]);
    var v := Judge(prev.store, items[n], parse, outcomes[n]);
    assert Pass(store, items, parse, outcomes).log == prev.log + [v];
    if i == n {
      PassStore(store, items[..n], parse, outcomes[..n]);
    } else {
      PassLog(store, items[..n], parse, outcomes[..n], i);
      assert items[..n][..i] == items[..i] && outcomes[..n][..i] == outcomes[..i];
      assert items[..n][i] == items[i] && outcomes[..n][i] == outcomes[i];
      assert (prev.log + [v])[i] == prev.log[i];
    }
  }

  /** One synchronisation pass: a feed that cannot be fetched or parsed ends it with nothing done. */
  function Sync(store: Store, feed: Feed, parse: UrlParser, outcomes: seq<Outcome>): (r: PassResult)
    requires feed.Feed? ==> |outcomes| == |feed.items|
    ensures store <= r.store
    ensures feed.FeedError? ==> r.store == store && r.log == []
    ensures feed.Feed? ==> |r.log| == |feed.items|
  {
    match feed
    case FeedError => PassResult(store, [])
    case Feed(items) => Pass(store, items, parse, outcomes)
  }

  /**
   A pass never removes a name, and every name it adds is the derived name of
   an item whose download left a file behind; conversely every such name
   ends up in the store.
   */
  lemma SyncStore(store: Store, feed: Feed, parse: UrlParser, outcomes: seq<Outcome>, name: string)
    requires feed.Feed? ==> |outcomes| == |feed.items|
    ensures name in Sync(store, feed, parse, outcomes).store <==>
              name in store ||
              (feed.Feed? && exists i :: LeavesName(feed.items, parse, outcomes, i, name))
  {
    if feed.Feed? {
      PassStore(store, feed.items, parse, outcomes);
      AcquiredMembers(feed.items, parse, outcomes, name);
    }
  }

  /**
   What the pass does with item `i`: a link without the ".torrent" suffix is
   skipped, a name already present (in the store before the pass, or left by
   an earlier item) is skipped without a download whatever its link, and a
   download is attempted only for a name not present.
   */
  lemma PassVerdict(store: Store, items: seq<Item>, parse: UrlParser, outcomes: seq<Outcome>, i: nat)
    requires |outcomes| == |items| && i < |items|
    ensures var v := Pass(store, items, parse, outcomes).log[i];
            && (v == SkipNotTorrent <==> !IsTorrentName(items[i].link))
            && (Extract(items[i], parse).Named? ==>
                  var n := Extract(items[i], parse).name;
                  && (n in store ==> v == SkipExisting(n))
                  && (forall j :: 0 <= j < i && Extract(items[j], parse) == Named(n) && LeavesFile(outcomes[j]) ==> v == SkipExisting(n))
                  && (v.Attempted() ==> n !in store && !outcomes[i].StatError?))
  {
    PassLog(store, items, parse, outcomes, i);
    if Extract(items[i], parse).Named? {
      var n := Extract(items[i], parse).name;
      forall j | 0 <= j < i && Extract(items[j], parse) == Named(n) && LeavesFile(outcomes[j])
        ensures n in Acquired(items[..i], parse, outcomes[..i])
      {
        assert LeavesName(items[..i], parse, outcomes[..i], j, n);
        AcquiredMembers(items[..i], parse, outcomes[..i], n);
      }
    }
  }

  /** Two items whose links differ but derive the same name: once the first leaves a file, the second is never downloaded. */
  lemma DedupByName(store: Store, items: seq<Item>, parse: UrlParser, outcomes: seq<Outcome>, j: nat, i: nat)
    requires |outcomes| == |items| && j < i < |items|
    requires Extract(items[j], parse).Named? && Extract(items[j], parse) == Extract(items[i], parse)
    requires LeavesFile(outcomes[j])
    ensures Pass(store, items, parse, outcomes).log[i] == SkipExisting(Extract(items[i], parse).name)
    ensures !Pass(store, items, parse, outcomes).log[i].Attempted()
  {
    PassVerdict(store, items, parse, outcomes, i);
  }

  /** Item `i` on a second pass over the same items and outcomes: never saved, and skipped if the first pass stored its name. */
  lemma SecondPassVerdict(store: Store, items: seq<Item>, parse: UrlParser, outcomes: seq<Outcome>, i: nat)
    requires |outcomes| == |items| && i < |items|
    ensures var first := Pass(store, items, parse, outcomes).store;
            var v := Pass(first, items, parse, outcomes).log[i];
            && !v.Saved?
            && (Extract(items[i], parse).Named? && Extract(items[i], parse).name in first ==>
                  v == SkipExisting(Extract(items[i], parse).name))
  {
    var first := Pass(store, items, parse, outcomes).store;
    PassVerdict(first, items, parse, outcomes, i);
    PassLog(first, items, parse, outcomes, i);
    if Extract(items[i], parse).Named? && LeavesFile(outcomes[i]) {
      var n := Extract(items[i], parse).name;
      assert LeavesName(items, parse, outcomes, i, n);
      AcquiredMembers(items, parse, outcomes, n);
      PassStore(store, items, parse, outcomes);
    }
  }

  /**
   Running the pass again over the same feed with the same outcomes changes
   nothing: the store is the same, no item is saved, and every item whose name
   the first pass left in the store is skipped as existing.
   */
  lemma SyncIdempotent(store: Store, feed: Feed, parse: UrlParser, outcomes: seq<Outcome>)
    requires feed.Feed? ==> |outcomes| == |feed.items|
    ensures var first := Sync(store, feed, parse, outcomes);
            var second := Sync(first.store, feed, parse, outcomes);
            && second.store == first.store
            && (forall i :: 0 <= i < |second.log| ==> !second.log[i].Saved?)
            && (forall i :: 0 <= i < |second.log| && Extract(feed.items[i], parse).Named? &&
                            Extract(feed.items[i], parse).name in first.store ==>
                  second.log[i] == SkipExisting(Extract(feed.items[i], parse).name))
  {
    if feed.Feed? {
      var items := feed.items;
      var first := Pass(store, items, parse, outcomes);
      PassStore(store, items, parse, outcomes);
      PassStore(first.store, items, parse, outcomes);
      forall i | 0 <= i < |items| {
        SecondPassVerdict(store, items, parse, outcomes, i);
      }
    }
  }

  /** The names acquired by a prefix of the items are among those acquired by all of them. */
  lemma AcquiredPrefix(items: seq<Item>, parse: UrlParser, outcomes: seq<Outcome>, i: nat)
    requires |outcomes| == |items| && i <= |items|
    ensures Acquired(items[..i], parse, outcomes[..i]) <= Acquired(items, parse, outcomes)
  {
    forall name | name in Acquired(items[..i], parse, outcomes[..i])
      ensures name in Acquired(items, parse, outcomes)
    {
      AcquiredWitness(items[..i], parse, outcomes[..i], name);
      var j :| LeavesName(items[..i], parse, outcomes[..i], j, name);
      assert items[..i][j] == items[j] && outcomes[..i][j] == outcomes[j];
      AcquiredFrom(items, parse, outcomes, name, j);
    }
  }

  /**
   An item that left no file (a 404, say) is tried again on the next pass,
   unless some item of the feed left a file under the same name.
   */
  lemma FailedItemRetried(store: Store, items: seq<Item>, parse: UrlParser, outcomes: seq<Outcome>, i: nat)
    requires |outcomes| == |items| && i < |items|
    requires Extract(items[i], parse).Named? && Extract(items[i], parse).name !in store
    requires forall j :: 0 <= j < |items| && Extract(items[j], parse) == Extract(items[i], parse) ==> !LeavesFile(outcomes[j])
    ensures var first := Pass(store, items, parse, outcomes);
            && Extract(items[i], parse).name !in first.store
            && !Pass(first.store, items, parse, outcomes).log[i].SkipExisting?
  {
    var n := Extract(items[i], parse).name;
    var first := Pass(store, items, parse, outcomes);
    PassStore(store, items, parse, outcomes);
    AcquiredMembers(items, parse, outcomes, n);
    assert n !in Acquired(items, parse, outcomes);
    AcquiredPrefix(items, parse, outcomes, i);
    PassLog(first.store, items, parse, outcomes, i);
  }
}

=== FILE: text.dfy ===
/**
 The string primitives the synchroniser and the renderer rely on: ASCII
 lower-casing, suffix tests, the title-to-file-name space replacement and the
 Unix `filepath.Base` rule for taking the last element of a path.
 */
module Text {

  /** The extension both the link filter and the listing filter look for. */
  const TorrentExt: string := ".torrent"

  /** The extension holds no path separator, so appending it never adds a path element. */
  lemma NoSlashInTorrentExt()
    ensures '/' !in TorrentExt
  {
    assert TorrentExt == ['.', 't', 'o', 'r', 'r', 'e', 'n', 't'];
  }

  /** Lower-cases one character; only ASCII letters change. */
  function LowerChar(c: char): char {
    if 'A' <= c <= 'Z' then (c as int - 'A' as int + 'a' as int) as char else c
  }

  /** Lower-cases a whole string, character by character. */
  function ToLower(s: string): (r: string)
    ensures |r| == |s|
    ensures forall i :: 0 <= i < |s| ==> r[i] == LowerChar(s[i])
  {
    if s == [] then [] else [LowerChar(s[0])] + ToLower(s[1..])
  }

  predicate HasSuffix(s: string, suffix: string) {
    |suffix| <= |s| && s[|s| - |suffix|..] == suffix
  }

  /** A name or link the program treats as a torrent file: its lower-cased form ends in ".torrent". */
  predicate IsTorrentName(s: string): (b: bool)
    ensures b ==> |TorrentExt| <= |s|
  {
    HasSuffix(ToLower(s), TorrentExt)
  }

  /**
   The suffix test is case-insensitive and looks only at the last eight
   characters: each must lower-case to the matching character of ".torrent".
   */
  lemma IsTorrentNameCharwise(s: string)
    ensures IsTorrentName(s) <==>
              |s| >= |TorrentExt| &&
              forall k :: 0 <= k < |TorrentExt| ==> LowerChar(s[|s| - |TorrentExt| + k]) == TorrentExt[k]
  {
    var l := ToLower(s);
    if |s| >= |TorrentExt| {
      var tail := l[|l| - |TorrentExt|..];
      forall k | 0 <= k < |TorrentExt|
        ensures tail[k] == LowerChar(s[|s| - |TorrentExt| + k])
      {
      }
      assert IsTorrentName(s) <==> tail == TorrentExt;
    }
  }

  /** Appending ".torrent" to any string yields a torrent name. */
  lemma {:induction false} WithTorrentExtIsTorrentName(s: string)
    ensures IsTorrentName(s + TorrentExt)
  {
    var t := s + TorrentExt;
    forall k | 0 <= k < |TorrentExt|
      ensures LowerChar(t[|t| - |TorrentExt| + k]) == TorrentExt[k]
    {
      assert t[|t| - |TorrentExt| + k] == TorrentExt[k];
    }
    IsTorrentNameCharwise(t);
  }

  /** `strings.ReplaceAll(s, " ", "_")`: every space becomes an underscore. */
  function SpacesToUnderscores(s: string): (r: string)
    ensures |r| == |s|
    ensures ' ' !in r
    ensures forall i :: 0 <= i < |s| && s[i] != ' ' ==> r[i] == s[i]
    ensures forall i :: 0 <= i < |s| && s[i] == ' ' ==> r[i] == '_'
  {
    if s == [] then []
    else [if s[0] == ' ' then '_' else s[0]] + SpacesToUnderscores(s[1..])
  }

  predicate AllSlashes(s: string) {
    forall i :: 0 <= i < |s| ==> s[i] == '/'
  }

  /** `s` with every trailing '/' removed. */
  function TrimTrailingSlashes(s: string): (r: string)
    ensures r <= s
    ensures r == [] || r[|r| - 1] != '/'
  {
    if s != [] && s[|s| - 1] == '/' then TrimTrailingSlashes(s[..|s| - 1]) else s
  }

  /** What `TrimTrailingSlashes` drops is slashes only. */
  lemma {:induction false} TrimmedAreSlashes(s: string)
    ensures AllSlashes(s[|TrimTrailingSlashes(s)|..])
  {
    if s != [] && s[|s| - 1] == '/' {
      var s' := s[..|s| - 1];
      TrimmedAreSlashes(s');
      var t := TrimTrailingSlashes(s');
      assert s[|t|..] == s'[|t|..] + ['/'];
    }
  }

  /** The characters after the last '/' of `s` (all of `s` when it has none). */
  function LastSegment(s: string): (r: string)
    ensures |r| <= |s|
    ensures '/' !in r
  {
    if s == [] || s[|s| - 1] == '/' then []
    else LastSegment(s[..|s| - 1]) + [s[|s| - 1]]
  }

  /** `LastSegment(s)` is a suffix of `s` that starts right after a slash or at the start of `s`. */
  lemma {:induction false} LastSegmentIsSuffix(s: string)
    ensures LastSegment(s) == s[|s| - |LastSegment(s)|..]
    ensures |LastSegment(s)| == |s| || s[|s| - |LastSegment(s)| - 1] == '/'
  {
    if s != [] && s[|s| - 1] != '/' {
      var s' := s[..|s| - 1];
      LastSegmentIsSuffix(s');
      var r' := LastSegment(s');
      assert s[|s| - |r'| - 1..] == s'[|s'| - |r'|..] + [s[|s| - 1]];
    }
  }

  /**
   `filepath.Base` with '/' as the only separator: "." for the empty path, "/"
   for a path of slashes only, otherwise the last element once trailing
   slashes are dropped. It never returns the empty string.
   */
  function PathBase(p: string): (r: string)
    ensures r != []
    ensures p == [] ==> r == "."
    ensures r == "/" <==> p != [] && AllSlashes(p)
    ensures r != "/" ==> '/' !in r
    ensures p != [] && !AllSlashes(p) ==>
              exists i, j :: 0 <= i < j <= |p| && r == p[i..j] && (i == 0 || p[i - 1] == '/') && AllSlashes(p[j..])
  {
    if p == [] then "."
    else
      var t := TrimTrailingSlashes(p);
      TrimmedAreSlashes(p);
      if t == [] then assert p[|t|..] == p; "/"
      else
        var seg := LastSegment(t);
        LastSegmentIsSuffix(t);
        assert p[..|t|] == t;
        assert p[|t| - 1] != '/';
        assert p[|t| - |seg|..|t|] == seg;
        seg
  }

  /** Dropping one trailing slash does not change the trimmed path. */
  lemma TrimDropSlash(path: string, n: nat)
    requires 0 < n <= |path| && path[n - 1] == '/'
    ensures TrimTrailingSlashes(path[..n - 1]) == TrimTrailingSlashes(path[..n])
  {
    assert path[..n][..n - 1] == path[..n - 1];
  }

  /** Appending slash-free characters extends the last segment by them. */
  lemma {:induction false} LastSegmentAppend(s: string, t: string)
    requires '/' !in t
    ensures LastSegment(s + t) == LastSegment(s) + t
    decreases |t|
  {
    if t == [] {
      assert s + t == s;
    } else {
      var t', c := t[..|t| - 1], t[|t| - 1];
      assert '/' !in t' by {
        forall k | 0 <= k < |t'| ensures t'[k] != '/' {
          assert t'[k] == t[k];
        }
      }
      LastSegmentAppend(s, t');
      var u := s + t;
      assert u[..|u| - 1] == s + t' && u[|u| - 1] == c;
      assert t == t' + [c];
    }
  }

  /** The last segment of `path[..n]` is what follows its last slash at `i` (or all of it when `i` is -1). */
  lemma SegmentAfterSlash(path: string, i: int, n: nat)
    requires -1 <= i < n <= |path|
    requires i < 0 || path[i] == '/'
    requires forall k :: i < k < n ==> path[k] != '/'
    ensures LastSegment(path[..n]) == path[i + 1..n]
  {
    var head, seg := path[..i + 1], path[i + 1..n];
    assert '/' !in seg by {
      forall k | 0 <= k < |seg| ensures seg[k] != '/' {
        assert seg[k] == path[i + 1 + k];
      }
    }
    assert head == [] || head[|head| - 1] == '/';
    assert LastSegment(head) == [];
    LastSegmentAppend(head, seg);
    assert path[..n] == head + seg;
  }

  /** First loop of `filepath.Base`: the length of `path` once trailing slashes are stripped. */
  method StripSlashes(path: string) returns (n: nat)
    ensures n <= |path| && path[..n] == TrimTrailingSlashes(path)
  {
    n := |path|;
    assert path[..n] == path;
    while n > 0 && path[n - 1] == '/'
      invariant 0 <= n <= |path|
      invariant TrimTrailingSlashes(path[..n]) == TrimTrailingSlashes(path)
    {
      TrimDropSlash(path, n);
      n := n - 1;
    }
  }

  /** Second loop of `filepath.Base`: the index of the last '/' before position `n`, or -1. */
  method LastSlashBefore(path: string, n: nat) returns (i: int)
    requires n <= |path|
    ensures -1 <= i < n
    ensures path[i + 1..n] == LastSegment(path[..n])
  {
    i := n - 1;
    while i >= 0 && path[i] != '/'
      invariant -1 <= i < n
      invariant forall k :: i < k < n ==> path[k] != '/'
    {
      i := i - 1;
    }
    SegmentAfterSlash(path, i, n);
  }

  /** `filepath.Base` as the source library computes it, walking the path from its end. */
  method Base(path: string) returns (r: string)
    ensures r == PathBase(path)
  {
    if path == [] {
      return ".";
    }
    var n := StripSlashes(path);
    var i := LastSlashBefore(path, n);
    r := path[i + 1..n];
    if r == [] {
      r := "/";
    }
  }
}

=== FILE: urlpath.dfy ===
/**
 How an HTTP link names the resource it asks for: the path runs from the end
 of the authority up to the first '?' (the query) or '#' (the fragment), and
 is percent-decoded before a server route sees it. This is what the /files/
 route of the service receives when a feed reader follows a rendered link.
 A link holding a control character or a backslash has no dependable path:
 Go's URL parser refuses control characters, and WHATWG clients drop tab,
 line feed and carriage return and read '\' as '/'.
 */
module UrlPath {

  datatype Option<T> = None | Some(value: T)

  /** The scheme every link of the service carries. */
  const Scheme: string := "http://"

  /** A character that ends the path of a URL: '?' opens the query, '#' the fragment. */
  predicate EndsPath(c: char) {
    c == '?' || c == '#'
  }

  /** A character that ends the authority (host and port) of a URL. */
  predicate EndsAuthority(c: char) {
    c == '/' || EndsPath(c)
  }

  /** A character clients refuse or rewrite when it appears raw in a link: a control character or a backslash. */
  predicate Unsafe(c: char) {
    c < ' ' || c as int == 0x7F || c == '\\'
  }

  /** A string without such characters. */
  predicate Clean(s: string) {
    forall k :: 0 <= k < |s| ==> !Unsafe(s[k])
  }

  /**
   A character a path must percent-encode to keep it: the escape character
   itself, the two path terminators, and the characters clients refuse or
   rewrite.
   */
  predicate Reserved(c: char) {
    c == '%' || EndsPath(c) || Unsafe(c)
  }

  /** The leading characters of `s` before the first '?' or '#'. */
  function PathPart(s: string): (r: string)
    ensures r <= s
    ensures forall k :: 0 <= k < |r| ==> !EndsPath(r[k])
    ensures |r| < |s| ==> EndsPath(s[|r|])
  {
    if s == [] || EndsPath(s[0]) then [] else [s[0]] + PathPart(s[1..])
  }

  /** The length of the authority at the start of `s`: up to the first '/', '?' or '#'. */
  function AuthorityLength(s: string): (n: nat)
    ensures n <= |s|
    ensures forall k :: 0 <= k < n ==> !EndsAuthority(s[k])
    ensures n < |s| ==> EndsAuthority(s[n])
  {
    if s == [] || EndsAuthority(s[0]) then 0 else 1 + AuthorityLength(s[1..])
  }

  predicate IsHexDigit(c: char) {
    '0' <= c <= '9' || 'A' <= c <= 'F' || 'a' <= c <= 'f'
  }

  function HexValue(c: char): (v: nat)
    requires IsHexDigit(c)
    ensures v < 16
  {
    if '0' <= c <= '9' then c as int - '0' as int
    else if 'A' <= c <= 'F' then c as int - 'A' as int + 10
    else c as int - 'a' as int + 10
  }

  /** The upper-case hexadecimal digit of a value below 16. */
  function HexDigit(v: nat): (c: char)
    requires v < 16
    ensures IsHexDigit(c) && HexValue(c) == v
  {
    if v < 10 then ('0' as int + v) as char else ('A' as int + v - 10) as char
  }

  /**
   Percent-decoding of a URL path: "%XY" stands for the character with code
   0xXY, and a '%' not followed by two hexadecimal digits makes the path
   invalid.
   */
  function Unescape(s: string): (r: Option<string>)
  {
    if s == [] then Some([])
    else if s[0] == '%' then
      if |s| >= 3 && IsHexDigit(s[1]) && IsHexDigit(s[2]) then
        match Unescape(s[3..])
        case None => None
        case Some(t) => Some([(16 * HexValue(s[1]) + HexValue(s[2])) as char] + t)
      else None
    else
      match Unescape(s[1..])
      case None => None
      case Some(t) => Some([s[0]] + t)
  }

  /** Decoding never lengthens a path, and shortens every path that holds an escape. */
  lemma {:induction false} UnescapeShrinks(s: string)
    ensures Unescape(s).Some? ==> |Unescape(s).value| <= |s|
    ensures Unescape(s).Some? && '%' in s ==> |Unescape(s).value| < |s|
    decreases |s|
  {
    if s != [] {
      if s[0] == '%' {
        if |s| >= 3 && IsHexDigit(s[1]) && IsHexDigit(s[2]) {
          UnescapeShrinks(s[3..]);
        }
      } else {
        UnescapeShrinks(s[1..]);
        assert '%' in s ==> '%' in s[1..];
      }
    }
  }

  /** A path without '%' decodes to itself. */
  lemma {:induction false} UnescapePlain(s: string)
    requires '%' !in s
    ensures Unescape(s) == Some(s)
    decreases |s|
  {
    if s != [] {
      assert '%' !in s[1..];
      UnescapePlain(s[1..]);
      assert [s[0]] + s[1..] == s;
    }
  }

  /** Decoding passes a plain prefix through unchanged. */
  lemma {:induction false} UnescapePlainPrefix(p: string, s: string)
    requires '%' !in p
    ensures Unescape(p + s) == match Unescape(s) case None => None case Some(t) => Some(p + t)
    decreases |p|
  {
    if p == [] {
      assert p + s == s;
      if Unescape(s).Some? {
        assert p + Unescape(s).value == Unescape(s).value;
      }
    } else {
      assert '%' !in p[1..];
      UnescapePlainPrefix(p[1..], s);
      assert (p + s)[1..] == p[1..] + s;
      assert (p + s)[0] == p[0];
      assert [p[0]] + p[1..] == p;
      if Unescape(s).Some? {
        assert [p[0]] + (p[1..] + Unescape(s).value) == p + Unescape(s).value;
      }
    }
  }

  /** One character as a path writes it: reserved characters as "%XY", any other as itself. */
  function EscapeChar(c: char): (r: string)
    ensures forall k :: 0 <= k < |r| ==> !EndsPath(r[k]) && !Unsafe(r[k])
    ensures Reserved(c) ==> |r| == 3 && r[0] == '%' && IsHexDigit(r[1]) && IsHexDigit(r[2])
                            && (16 * HexValue(r[1]) + HexValue(r[2])) as char == c
    ensures !Reserved(c) ==> r == [c]
  {
    if Reserved(c) then ['%', HexDigit(c as int / 16), HexDigit(c as int % 16)] else [c]
  }

  /** A file name made safe for the path of a link: every reserved character percent-encoded. */
  function Escape(s: string): (r: string)
    ensures forall k :: 0 <= k < |r| ==> !EndsPath(r[k]) && !Unsafe(r[k])
    ensures |r| >= |s|
  {
    if s == [] then []
    else
      var r := EscapeChar(s[0]) + Escape(s[1..]);
      assert forall k :: |EscapeChar(s[0])| <= k < |r| ==> r[k] == Escape(s[1..])[k - |EscapeChar(s[0])|];
      r
  }

  /** Decoding undoes escaping. */
  lemma {:induction false} UnescapeEscape(s: string)
    ensures Unescape(Escape(s)) == Some(s)
    decreases |s|
  {
    if s != [] {
      var e, rest := EscapeChar(s[0]), Escape(s[1..]);
      UnescapeEscape(s[1..]);
      var t := e + rest;
      assert Escape(s) == t;
      if Reserved(s[0]) {
        assert t[0] == '%' && t[1] == e[1] && t[2] == e[2];
        assert t[3..] == rest;
      } else {
        assert t[0] == s[0] && t[1..] == rest;
      }
      assert [s[0]] + s[1..] == s;
    }
  }

  /** A name without reserved characters is written as it is. */
  lemma {:induction false} EscapePlain(s: string)
    requires forall k :: 0 <= k < |s| ==> !Reserved(s[k])
    ensures Escape(s) == s
    decreases |s|
  {
    if s != [] {
      EscapePlain(s[1..]);
      assert [s[0]] + s[1..] == s;
    }
  }

  /**
   The path an HTTP request for `link` asks for: the part after the scheme and
   the authority, cut at the query or fragment, and percent-decoded. None when
   the link is not an http link, holds a control character or a backslash, or
   its path holds an invalid escape.
   */
  function RequestPath(link: string): Option<string> {
    if |link| < |Scheme| || link[..|Scheme|] != Scheme || !Clean(link) then None
    else
      var rest := link[|Scheme|..];
      Unescape(PathPart(rest[AuthorityLength(rest)..]))
  }

  /** A host name as it appears in a request: no '/', '?' or '#', and no control character or backslash. */
  predicate PlainHost(host: string) {
    forall k :: 0 <= k < |host| ==> !EndsAuthority(host[k]) && !Unsafe(host[k])
  }

  /** After a plain host, the authority ends where the path begins. */
  lemma {:induction false} AuthorityOfPlainHost(host: string, path: string)
    requires PlainHost(host) && path != [] && path[0] == '/'
    ensures AuthorityLength(host + path) == |host|
    decreases |host|
  {
    if host != [] {
      assert (host + path)[1..] == host[1..] + path;
      assert (host + path)[0] == host[0];
      AuthorityOfPlainHost(host[1..], path);
    } else {
      assert host + path == path;
    }
  }

  /**
   The request path of `http://host` followed by a clean path is that path,
   cut at the query or fragment and decoded; a path holding a control
   character or a backslash gives none.
   */
  lemma RequestPathOf(host: string, path: string)
    requires PlainHost(host) && path != [] && path[0] == '/'
    ensures Clean(path) ==> RequestPath(Scheme + host + path) == Unescape(PathPart(path))
    ensures !Clean(path) ==> RequestPath(Scheme + host + path) == None
  {
    var link := Scheme + host + path;
    assert link[..|Scheme|] == Scheme;
    assert link[|Scheme|..] == host + path;
    AuthorityOfPlainHost(host, path);
    assert (host + path)[|host|..] == path;
    CleanLink(host, path);
  }

  /** A link `http://host` + path is clean exactly when the path is. */
  lemma CleanLink(host: string, path: string)
    requires PlainHost(host)
    ensures Clean(Scheme + host + path) <==> Clean(path)
  {
    var link := Scheme + host + path;
    assert Scheme == ['h', 't', 't', 'p', ':', '/', '/'];
    var n := |Scheme + host|;
    if Clean(path) {
      forall k | 0 <= k < |link| ensures !Unsafe(link[k]) {
        if k < |Scheme| {
          assert link[k] == Scheme[k];
        } else if k < n {
          assert link[k] == host[k - |Scheme|];
        } else {
          assert link[k] == path[k - n];
        }
      }
    } else {
      var k :| 0 <= k < |path| && Unsafe(path[k]);
      assert link[n + k] == path[k];
    }
  }

  /** A path with no '?' or '#' is kept whole. */
  lemma {:induction false} PathPartWhole(s: string)
    requires forall k :: 0 <= k < |s| ==> !EndsPath(s[k])
    ensures PathPart(s) == s
    decreases |s|
  {
    if s != [] {
      PathPartWhole(s[1..]);
      assert [s[0]] + s[1..] == s;
    }
  }
}
